=== FILE: README.md ===
# Attendance ledger of the Discord check-in bots

Two variants of a Discord bot let guild members check in ("điểm danh")
during two daily windows: noon (12:00–16:00) and evening (18:00–22:00).
`a.py` is the first variant and `bot.py` the second. Both keep an in-memory
ledger `guild → day → session → [ {uid, time} ]`. A button press runs a
check-in transaction. A board (`build_embed`) lists the day's check-ins and
their total. A job that runs once a minute clears a day at 00:00.

This project models the ledger and the logic around it as pure functions over
immutable maps and sequences. The current day and time of day are passed in
as parameters.

- `clock.dfy` (module `Clock`): time of day in microseconds since midnight,
  its `%H:%M` rendering (`Stamp`), days as integers, yesterday being `d - 1`,
  the two sessions and `InSession`.
- `ledger.dfy` (module `Ledger`): the nested map, the defaulting read
  `Lookup`, the check-in transaction `CheckIn` with outcomes
  `Accepted(record)`, `OutOfWindow` and `Duplicate`, and the per-guild and
  all-guild day removals. The check-in is the same code in both variants.
- `board.dfy` (module `Board`): `build_embed` as data. It holds the two
  numbered sections and the total.
- `plain_bot.dfy` (module `PlainBot`): what only `a.py` does. This is the
  manual end-of-day for one guild and the midnight job that clears today.
- `history_bot.dfy` (module `HistoryBot`): what only `bot.py` does. This is
  the per-guild history channel, `kenhlichsu`, and the midnight job that
  posts yesterday's board and then clears yesterday. The job is modelled
  twice. `AutoReset` is a function describing a tick in which every send
  succeeds. `RunAutoReset` is a method that walks the guilds in order like
  the source's loop and stops at the first send that raises. When no send
  raises, the two end in the same state and make posts to exactly the same
  guilds, one post each.
- `options.dfy` (module `Options`): `Option`.

The invariant carried through is `Ledger.WellFormed`. It says every session
list of every guild and day holds each uid at most once. It is preserved by
the check-in, by both resets, and by a midnight walk that stops part-way.

## Model

| member | source | states |
|---|---|---|
| Clock.InSession | a.py:37-43 | A time resolves to `noon` exactly when 12:00:00 ≤ t ≤ 16:00:00 and to `evening` exactly when 18:00:00 ≤ t ≤ 22:00:00. Otherwise it resolves to none. `bot.py:45-51` is the same function. |
| Clock.WindowsDisjoint | a.py:39-42 | No time of day lies in both windows. |
| Clock.WindowBoundaries | a.py:39-42 | Both bounds of both windows are inside. The instant just before an opening or after a closing is outside. 16:00:30 is outside even though `%H:%M` renders it as "16:00". |
| Clock.StampOf | a.py:88 | The `%H:%M` stamp is the minute holding t: hour < 24, minute < 60, and t lies inside that minute. |
| Clock.MidnightStamp | a.py:199 | The clock reads "00:00" exactly during the first minute of the day. |
| Clock.StampWithinWindow | a.py:86-89 | The stamp stored with a check-in made inside a window never reads earlier than the window's opening minute or later than its closing minute. |
| Ledger.Lookup | a.py:101-102 | A session list is read through the chained `.get(gid, {}).get(day, {}).get(session, [])`: a missing guild, day or session reads as the empty list. `bot.py:107-108` is the same read. Every board and every contract about the contents of a session list goes through this read; contracts about which guilds and days exist state map keys directly. |
| Ledger.HasUid | a.py:80 | The duplicate scan is true exactly when some record in the list carries the uid. |
| Ledger.WithDay | a.py:76-77 | The two `setdefault` chains add the guild, the day and both session lists where missing. They replace nothing and change no list's contents. |
| Ledger.CheckIn | a.py:65-89 | Out of window exactly when no session is open, and then the ledger is returned unchanged. Duplicate exactly when the uid is already in that guild/day/session list, and then no list changes. Otherwise exactly one record `{uid, stamp}` is appended at the end of that list. `bot.py:73-96` is the same code. |
| Ledger.CheckInFrame | a.py:86-89 | A check-in changes no other session, day or guild. Other guilds' maps and the guild's other days are identical afterwards. |
| Ledger.CheckInKeys | a.py:76-77 | After an in-window check-in, accepted or duplicate, the guild and day exist with both `noon` and `evening` lists. An out-of-window check-in creates no guild key. |
| Ledger.CheckInPreservesWellFormed | a.py:79-89 | If every uid appears at most once per guild/day/session before a check-in, the same holds after it. |
| Ledger.WellFormedAfterAppend | a.py:79-89 | Appending a record whose uid the list does not hold, and changing no other list, keeps every list free of repeated uids. |
| Ledger.CheckInTwiceIsDuplicate | bot.py:87-96 | After an accepted check-in, the same member checking in again in the same guild, day and session is a duplicate and stores nothing. |
| Ledger.ReplayWellFormed | a.py:65-89 | Starting from the empty ledger that a missing data file loads as (a.py:19-20), any sequence of button presses leaves each uid at most once per guild, day and session. |
| Ledger.ClearGuildDay | a.py:188 | The manual reset removes only the given guild's entry for the day. Every other guild and day reads as before. No guild key is added or removed. |
| Ledger.ClearDay | a.py:200-201 | The all-guild reset removes the day's key from every guild. Every other day keeps its key and its entry unchanged. The set of guild keys is unchanged. |
| Ledger.ClearDayIsPerGuild | a.py:188-201 | For each guild, the all-guild reset does what the one-guild reset does. |
| Ledger.ClearGuildDayIdempotent | a.py:188 | Popping one guild's day a second time gives the same ledger as popping it once, because `pop(day, None)` on a missing day is a no-op. |
| Ledger.ClearDayIdempotent | a.py:200-201 | Removing a day from every guild a second time gives the same ledger as removing it once. |
| Ledger.ClearPreservesWellFormed | a.py:200-201 | Resets keep every session list free of repeated uids. |
| Board.Enumerate | a.py:116 | `enumerate(list, 1)` numbers the records consecutively from the start value, in list order, one entry per record. |
| Board.BuildBoard | bot.py:106-135 | The board for any guild and day reads missing data as empty. Each section lists that session's records numbered 1..n in insertion order. The total is `len(noon) + len(evening)`. |
| Board.TotalCountsLines | a.py:144 | The footer total equals the number of lines on the board. |
| Board.BoardOfMissingGuild | a.py:100-102 | A guild absent from the ledger gets an empty board with total 0. |
| Board.BoardAfterAccepted | a.py:86-96 | After an accepted check-in, the re-rendered board gains one line numbered n+1 at the end of the resolved session. The other section is unchanged and the total grows by one. |
| Board.BoardAfterAppend | a.py:114-116 | When one session list gains a record at its end and the other is unchanged, that section gains one line numbered n+1 and the total grows by one. |
| Board.BoardAfterRejected | bot.py:73-91 | A rejected check-in (out of window or duplicate) leaves every board of every guild and day unchanged. |
| PlainBot.EndDay | a.py:183-189 | The board posted is that of the day read inside `build_embed` (a.py:100). The day reset is the one read again after the send (a.py:188). When the send succeeds, the posted board is the first day's board as it stood before the reset, and afterwards the second day's board for that guild is empty. When the send raises, nothing is posted and the ledger is unchanged. In both cases other guilds and days are untouched and guild keys are unchanged. |
| PlainBot.EndDaySameDay | a.py:183-189 | When both date reads fall on the same day, the post counts that day's check-ins and the same day's board is empty afterwards. |
| PlainBot.EndDayAcrossMidnight | a.py:183-189 | When the send completes after midnight, the reset reads the new day. That day has no entry yet, because no window opens before noon, so the ledger is left exactly as it was. The posted day keeps all its check-ins, although the reply at a.py:191-194 says the data was reset. |
| PlainBot.AutoReset | a.py:197-202 | As written: outside the first minute of the day nothing changes. At "00:00" today's key is removed from every guild, so its lists read empty. Every other day keeps its key and its entry unchanged. |
| PlainBot.AutoResetKeepsFinishedDay | a.py:199-201 | As written, the job never clears the day that has just ended. |
| PlainBot.AutoResetNoOpOnFreshDay | a.py:199-201 | As written, the job changes nothing when no guild has an entry for the new day yet. |
| PlainBot.AutoResetCounterexample | a.py:199-201 | Concrete case: a noon check-in on day 9 is still on day 9's board after the job fires at 00:00 on day 10. |
| PlainBot.AutoResetCorrected | a.py:199-201 | Corrected: at "00:00" the key of the finished day (today − 1) is removed from every guild. Every other day keeps its key and its entry unchanged. |
| PlainBot.AutoResetCorrectedClearsFinishedDay | a.py:199-201 | After the corrected job fires, the finished day's board is empty in every guild. |
| HistoryBot.SetHistoryChannel | bot.py:159 | `kenhlichsu` sets this guild's history channel and keeps every other guild's channel and the ledger as they were. |
| HistoryBot.AutoReset | bot.py:167-182 | Outside "00:00" there are no posts and no change. At "00:00", yesterday is the day numbered today − 1, as `yesterday()` computes it at bot.py:42-43. Exactly the guilds with a ledger entry and a resolvable history channel get a post of yesterday's board taken from the state before the reset. Yesterday's key is then removed from every guild. Every other day keeps its key and its entry, and the channel map is unchanged. |
| HistoryBot.ReportBuiltBeforeRemoval | bot.py:174-180 | The post's total counts yesterday's check-ins as they were, while the board of the same day after the tick is empty. |
| HistoryBot.Reported | bot.py:175-177 | A guild gets a history post exactly when it has a ledger entry, `gid in history_channel` holds, and `get_channel` resolves the stored id (`if ch:`). |
| HistoryBot.SendFails | bot.py:178 | The `await ch.send(...)` of a guild that gets a post raises. The model says this happens when its resolved channel does not accept the message. |
| HistoryBot.AutoResetIdempotent | bot.py:169-180 | A second run in the same minute leaves the state as the first left it. It is not harmless, though: it posts again to exactly the guilds the first run posted to, and each of those posts shows an empty board for yesterday. |
| HistoryBot.PostsAlong | bot.py:174-178 | Posts made along a walk over the guilds go only to guilds of the walk that have a resolvable history channel. Each carries that guild's board of the day. |
| HistoryBot.PostsAlongComplete | bot.py:174-178 | Every guild of the walk that has a resolvable history channel gets a post. |
| HistoryBot.PostsAlongOnce | bot.py:174-178 | When the walk names each guild once, as `list(attendance.keys())` does, no guild gets two posts. |
| HistoryBot.FirstFailure | bot.py:174-178 | The walk stops at the first guild whose send raises: no earlier guild's send raises, and the guild at that position does. |
| HistoryBot.ClearAlong | bot.py:180 | After the pops of the walked guilds, those guilds read empty on the day. Every other guild, and every other day, reads as before. |
| HistoryBot.ClearAlongKeys | bot.py:180 | The walked guilds no longer hold the day's key at all. Every other guild and day keeps its key and its entry unchanged. |
| HistoryBot.ClearAlongPreservesWellFormed | bot.py:174-180 | A walk that stops part-way, at a failing send, still leaves every session list free of repeated uids. |
| HistoryBot.WalkStep | bot.py:174-180 | The guild at the current position has not been touched by earlier pops. Popping it extends the cleared prefix by that guild. |
| HistoryBot.WalkAdvance | bot.py:174-180 | At each step of the walk, the post built from the partly reset ledger is the one made from the ledger as it stood before the job. Resetting the guild extends the reset prefix. |
| HistoryBot.WalkAgrees | bot.py:174-180 | A full walk at "00:00" ends in `AutoReset`'s state. It posts to exactly the guilds `AutoReset` reports, with `AutoReset`'s report for each. |
| HistoryBot.Walk | bot.py:174-180 | The loop over the guilds in key order sends each board, then pops, one guild at a time. It stops at the first send that raises: the posts are those of the guilds before it, exactly those guilds lose the day, and `failed` is set exactly when some send raised. |
| HistoryBot.SameListsSameBoard | bot.py:106-108 | A board depends only on the two session lists it reads. |
| HistoryBot.RunAutoReset | bot.py:167-182 | Outside "00:00" nothing happens. At "00:00" the loop posts to, then clears, one guild at a time, and earlier guilds' resets never change a later guild's post. A send that raises ends the loop: exactly the guilds before it lose yesterday, and that guild and every later one keep it. No guild is posted twice. Without a failure, the final state equals `AutoReset`'s, and the posted guilds are exactly `AutoReset`'s reported guilds, each posted once with `AutoReset`'s report. |

## Left out

- Discord plumbing is not modelled. This covers bot and intents setup, views and buttons as objects, embed titles, emoji and text, message sending and editing, `tree.sync` and `bot.run`. The board is modelled as data; a section whose list is empty is the one rendered with the "nobody yet" placeholder.
- The administrator check (`admin_only`) is not modelled. It asks the platform for the member's permissions.
- JSON `load`/`save` and the data file are not modelled. A successful check-in calls `save` before it acknowledges (a.py:90-92). The duplicate path does not save, but its `setdefault` changes remain in memory; `CheckIn` returns them.
- The clock, the timezone and `tasks.loop(minutes=1)` are not modelled. The current day and time of day are parameters. Each job function models one tick, and whether the loop ticks once inside the 00:00 minute is outside the model.
- `CheckIn` reads the clock once. The source reads it three times: in `in_session` (a.py:38, bot.py:46), in `today()` for the day (a.py:74, bot.py:82) and for the `%H:%M` stamp (a.py:88, bot.py:95). The day read cannot roll over after an in-window read, because the last window ends at 22:00. The stamp can differ from the window read only if the handler is delayed past the end of that minute.
- Dates are day numbers, not `%Y-%m-%d` strings. Channel ids are numbers. The `str`/`int` conversion of the stored channel id is not modelled.
- `bot.get_channel` is not modelled. The channels it resolves are a parameter (`reachable`).
- `diemdanh`, `testdiemdanh` and `testlichsu` only build and send a board; that board is `Board.BuildBoard`. The `buoi` parameter of `testdiemdanh` is ignored by the source.
- HistoryBot.AutoReset: describes a tick in which every send to a resolvable channel succeeds. In the source a raising `await ch.send` (bot.py:178) leaves the job before that guild's pop and skips `save()`; `HistoryBot.RunAutoReset` models that abort, and the skipped save is outside the model, which has no persistence.
- HistoryBot.RunAutoReset: the awaits inside the loop are not interleaved with other handlers. No check-in can be accepted at 00:00 because it is outside both windows. The only other command of this variant that changes state is `kenhlichsu` (bot.py:156-164); `diemdanh` only sends a board. A `kenhlichsu` handled during those awaits can set or change the history channel of a guild later in the walk (bot.py:159), so that guild's post goes to the new channel. This is not modelled: the walk reads the channel map as it stood when the job started.
- PlainBot.EndDay: the two date reads are parameters (`shown`, `cleared`), and `EndDayAcrossMidnight` gives their midnight consequence. The board and the pop are otherwise treated as one step. In the source, `await channel.send` (a.py:186) lies between building the board and the pop (a.py:188). A check-in handled during that await is removed by the pop without ever having been posted. The model does not interleave handlers.
- Data loaded from a file could hold session keys other than `noon`/`evening`, or could lack `history_channel`. The model's types rule both out.

## Findings

| source | as written | input that shows it | evidently intended | confidence | as-written member | corrected member |
|---|---|---|---|---|---|---|
| a.py:199-201 | At 00:00 the job removes `today()` from every guild. At that moment this is the day that has just begun. | A guild with a noon check-in on day 9, and the job firing at 00:00 on day 10: day 9's entry survives. No window opens before noon, so day 10 is still empty and the job changes nothing. | Remove the day that has just ended, as `bot.py:172-180` does with `yesterday()`. | medium; not executed | PlainBot.AutoReset | PlainBot.AutoResetCorrected |

=== FILE: board.dfy ===
/**
  The attendance board (`build_embed`): the two session lists of one guild
  and day, numbered from 1 in check-in order, and the day's total. Embed
  styling and text are not modelled; a session whose list is empty is the one
  shown with the "nobody yet" placeholder.
 */
module Board {
  import opened Clock
  import opened Ledger

  /** One numbered line of the board. */
  datatype Entry = Entry(number: nat, record: Record)

  datatype Board = Board(day: Day, noon: seq<Entry>, evening: seq<Entry>, total: nat)
  {
    /** The numbered lines shown under session `s`. */
    function Section(s: Session): seq<Entry>
    {
      match s
      case Noon => noon
      case Evening => evening
    }
  }

  /** `enumerate(list, first)`: each record paired with its position, counting from `first`. */
  function Enumerate(list: seq<Record>, first: nat): (es: seq<Entry>)
    ensures |es| == |list|
    ensures forall i :: 0 <= i < |list| ==> es[i] == Entry(first + i, list[i])
  {
    if list == [] then []
    else [Entry(first, list[0])] + Enumerate(list[1..], first + 1)
  }

  /** Numbering a list with one more record at the end numbers it one past the last. */
  lemma EnumerateSnoc(list: seq<Record>, rec: Record, first: nat)
    ensures Enumerate(list + [rec], first) == Enumerate(list, first) + [Entry(first + |list|, rec)]
  {
    var lhs, rhs := Enumerate(list + [rec], first), Enumerate(list, first) + [Entry(first + |list|, rec)];
    assert forall i :: 0 <= i < |lhs| ==> lhs[i] == rhs[i];
  }

  /**
    The board of guild `g` for day `d`: a missing guild, day or session shows
    as an empty section, each section numbers its check-ins 1..n in the order
    they were made, and the total counts both sections.
   */
  function BuildBoard(a: Attendance, g: Guild, d: Day): (b: Board)
    ensures b.day == d
    ensures forall s :: |b.Section(s)| == |Lookup(a, g, d, s)|
    ensures forall s, i :: 0 <= i < |Lookup(a, g, d, s)| ==>
              b.Section(s)[i] == Entry(i + 1, Lookup(a, g, d, s)[i])
    ensures b.total == |Lookup(a, g, d, Noon)| + |Lookup(a, g, d, Evening)|
  {
    var noon := Lookup(a, g, d, Noon);
    var evening := Lookup(a, g, d, Evening);
    Board(d, Enumerate(noon, 1), Enumerate(evening, 1), |noon| + |evening|)
  }

  /** The total always equals the number of lines on the board. */
  lemma TotalCountsLines(a: Attendance, g: Guild, d: Day)
    ensures var b := BuildBoard(a, g, d); b.total == |b.noon| + |b.evening|
  {
    var b := BuildBoard(a, g, d);
    assert |b.Section(Noon)| == |Lookup(a, g, d, Noon)|;
    assert |b.Section(Evening)| == |Lookup(a, g, d, Evening)|;
  }

  /** A guild with no ledger entry gets an empty board with total 0 for any day. */
  lemma BoardOfMissingGuild(a: Attendance, g: Guild, d: Day)
    requires g !in a
    ensures BuildBoard(a, g, d) == Board(d, [], [], 0)
  {
    var b := BuildBoard(a, g, d);
    assert |b.Section(Noon)| == 0 && |b.Section(Evening)| == 0;
  }

  /**
    After an accepted check-in the board of that guild and day gains exactly
    one line, at the end of the resolved session, numbered one past the
    previous last line; the total grows by one and the other section is as
    before.
   */
  lemma BoardAfterAccepted(a: Attendance, g: Guild, uid: Uid, d: Day, t: TimeOfDay)
    requires CheckIn(a, g, uid, d, t).outcome.Accepted?
    ensures var r := CheckIn(a, g, uid, d, t);
            var s := InSession(t).value;
            var before, after := BuildBoard(a, g, d), BuildBoard(r.attendance, g, d);
            && after.Section(s) == before.Section(s) + [Entry(|before.Section(s)| + 1, r.outcome.record)]
            && (forall s' :: s' != s ==> after.Section(s') == before.Section(s'))
            && after.total == before.total + 1
  {
    var r := CheckIn(a, g, uid, d, t);
    CheckInFrame(a, g, uid, d, t);
    BoardAfterAppend(a, r.attendance, g, d, InSession(t).value, r.outcome.record);
  }

  /**
    When one session list of a guild and day gains a record at its end and the
    other list is unchanged, that board gains one line at the end of the
    section, numbered one past the previous last line, and the total grows by one.
   */
  lemma BoardAfterAppend(a: Attendance, a': Attendance, g: Guild, d: Day, s: Session, rec: Record)
    requires Lookup(a', g, d, s) == Lookup(a, g, d, s) + [rec]
    requires forall s' :: s' != s ==> Lookup(a', g, d, s') == Lookup(a, g, d, s')
    ensures var before, after := BuildBoard(a, g, d), BuildBoard(a', g, d);
            && after.Section(s) == before.Section(s) + [Entry(|before.Section(s)| + 1, rec)]
            && (forall s' :: s' != s ==> after.Section(s') == before.Section(s'))
            && after.total == before.total + 1
  {
    SectionEnumerates(a, g, d, s);
    SectionEnumerates(a', g, d, s);
    EnumerateSnoc(Lookup(a, g, d, s), rec, 1);
    forall s' | s' != s
      ensures BuildBoard(a', g, d).Section(s') == BuildBoard(a, g, d).Section(s')
    {
      SectionEnumerates(a, g, d, s');
      SectionEnumerates(a', g, d, s');
    }
  }

  /** Each section of a board is its session list numbered from 1. */
  lemma SectionEnumerates(a: Attendance, g: Guild, d: Day, s: Session)
    ensures BuildBoard(a, g, d).Section(s) == Enumerate(Lookup(a, g, d, s), 1)
  {
  }

  /** A turned-away check-in changes no board of any guild or day. */
  lemma BoardAfterRejected(a: Attendance, g: Guild, uid: Uid, d: Day, t: TimeOfDay, g': Guild, d': Day)
    requires !CheckIn(a, g, uid, d, t).outcome.Accepted?
    ensures BuildBoard(CheckIn(a, g, uid, d, t).attendance, g', d') == BuildBoard(a, g', d')
  {
    var r := CheckIn(a, g, uid, d, t);
    CheckInFrame(a, g, uid, d, t);
    assert forall s :: Lookup(r.attendance, g', d', s) == Lookup(a, g', d', s);
    var b1, b2 := BuildBoard(r.attendance, g', d'), BuildBoard(a, g', d');
    assert b1.Section(Noon) == b2.Section(Noon);
    assert b1.Section(Evening) == b2.Section(Evening);
  }
}

=== FILE: clock.dfy ===
/**
  Wall-clock notions the attendance bots read from `now()`: the time of day,
  its `%H:%M` rendering, calendar days, and the two daily check-in windows.
  The clock itself is not modelled: every operation takes the current day and
  time of day as parameters.
 */
module Clock {
  import opened Options

  const MicrosPerMinute: nat := 60_000_000
  const MicrosPerHour: nat := 60 * MicrosPerMinute
  const MicrosPerDay: nat := 24 * MicrosPerHour

  /** A time of day in microseconds since midnight, the resolution of a time-of-day value. */
  type TimeOfDay = t: nat | t < MicrosPerDay

  /** A calendar day in the bot's fixed timezone, as a day number, so that the day before `d` is `d - 1`. */
  type Day = int

  /** The instant at which minute `m` of hour `h` begins (the source's `dtime(h, m)`). */
  function At(h: nat, m: nat): (t: TimeOfDay)
    requires h < 24 && m < 60
  {
    (60 * h + m) * MicrosPerMinute
  }

  /** The `%H:%M` rendering of a time of day, kept as its two numeric fields. */
  datatype Stamp = Stamp(hour: nat, minute: nat)

  /** Midnight as `%H:%M` renders it: "00:00". */
  const Midnight := Stamp(0, 0)

  /** Truncates a time of day to the minute it falls in. */
  function StampOf(t: TimeOfDay): (s: Stamp)
    ensures s.hour < 24 && s.minute < 60
    ensures At(s.hour, s.minute) <= t < At(s.hour, s.minute) + MicrosPerMinute
  {
    var s := Stamp(t / MicrosPerHour, t / MicrosPerMinute % 60);
    assert t / MicrosPerMinute == 60 * s.hour + s.minute;
    s
  }

  /** The two attendance sessions of a day. */
  datatype Session = Noon | Evening

  /** The first instant of a session's window. */
  function Opens(s: Session): TimeOfDay
  {
    match s
    case Noon => At(12, 0)
    case Evening => At(18, 0)
  }

  /** The last instant of a session's window; windows are closed at both ends. */
  function Closes(s: Session): TimeOfDay
  {
    match s
    case Noon => At(16, 0)
    case Evening => At(22, 0)
  }

  /** `t` lies inside the window of session `s`, both bounds included. */
  predicate Within(s: Session, t: TimeOfDay)
  {
    Opens(s) <= t <= Closes(s)
  }

  /**
    Resolves the session open at time of day `t` (the source's `in_session`):
    the session whose window holds `t`, or `None` outside every window.
   */
  function InSession(t: TimeOfDay): (r: Option<Session>)
    ensures forall s :: r == Some(s) <==> Within(s, t)
    ensures r == None <==> forall s :: !Within(s, t)
  {
    if At(12, 0) <= t <= At(16, 0) then Some(Noon)
    else if At(18, 0) <= t <= At(22, 0) then Some(Evening)
    else None
  }

  /** No time of day lies in both windows. */
  lemma WindowsDisjoint(t: TimeOfDay)
    ensures !(Within(Noon, t) && Within(Evening, t))
  {
  }

  /**
    The windows are compared at full resolution: 16:00:00 itself is still noon,
    but 16:00:30, which `%H:%M` still renders as "16:00", is outside every window,
    as are the instants just before 12:00 and 18:00 and just after 22:00.
   */
  lemma WindowBoundaries()
    ensures InSession(At(12, 0)) == Some(Noon)
    ensures InSession(At(16, 0)) == Some(Noon)
    ensures InSession(At(16, 0) + 30_000_000) == None
    ensures StampOf(At(16, 0) + 30_000_000) == Stamp(16, 0)
    ensures InSession(At(12, 0) - 1) == None
    ensures InSession(At(18, 0)) == Some(Evening)
    ensures InSession(At(18, 0) - 1) == None
    ensures InSession(At(22, 0)) == Some(Evening)
    ensures InSession(At(22, 0) + 1) == None
  {
    StampOfAt(16, 0);
    StampUnique(At(16, 0) + 30_000_000, 16, 0);
  }

  /** `StampOf` inverts `At`: the instant a minute begins renders as that minute. */
  lemma StampOfAt(h: nat, m: nat)
    requires h < 24 && m < 60
    ensures StampOf(At(h, m)) == Stamp(h, m)
  {
    StampUnique(At(h, m), h, m);
  }

  /** A time of day renders as the unique minute whose span holds it. */
  lemma StampUnique(t: TimeOfDay, h: nat, m: nat)
    requires h < 24 && m < 60
    requires At(h, m) <= t < At(h, m) + MicrosPerMinute
    ensures StampOf(t) == Stamp(h, m)
  {
    var s := StampOf(t);
    var k, k' := 60 * s.hour + s.minute, 60 * h + m;
    assert k * MicrosPerMinute <= t < (k + 1) * MicrosPerMinute;
    assert k' * MicrosPerMinute <= t < (k' + 1) * MicrosPerMinute;
    assert k == k';
  }

  /** A time of day renders as "00:00" exactly during the first minute of the day. */
  lemma MidnightStamp(t: TimeOfDay)
    ensures StampOf(t) == Midnight <==> t < MicrosPerMinute
  {
    if t < MicrosPerMinute {
      StampUnique(t, 0, 0);
    }
  }

  /**
    The `%H:%M` stamp of a time inside a session's window lies between the
    stamps of the window's bounds: the recorded check-in time never reads
    outside the window.
   */
  lemma StampWithinWindow(s: Session, t: TimeOfDay)
    requires Within(s, t)
    ensures MinuteOfDay(StampOf(Opens(s))) <= MinuteOfDay(StampOf(t)) <= MinuteOfDay(StampOf(Closes(s)))
  {
    match s
    case Noon =>
      StampOfAt(12, 0);
      StampOfAt(16, 0);
      StampMonotone(At(12, 0), t);
      StampMonotone(t, At(16, 0));
    case Evening =>
      StampOfAt(18, 0);
      StampOfAt(22, 0);
      StampMonotone(At(18, 0), t);
      StampMonotone(t, At(22, 0));
  }

  /** The minute of the day a stamp names. */
  function MinuteOfDay(s: Stamp): nat
  {
    60 * s.hour + s.minute
  }

  /** Later times never render as earlier minutes. */
  lemma StampMonotone(t: TimeOfDay, u: TimeOfDay)
    requires t <= u
    ensures MinuteOfDay(StampOf(t)) <= MinuteOfDay(StampOf(u))
  {
    var k, k' := MinuteOfDay(StampOf(t)), MinuteOfDay(StampOf(u));
    assert k * MicrosPerMinute <= t < (k + 1) * MicrosPerMinute;
    assert k' * MicrosPerMinute <= u < (k' + 1) * MicrosPerMinute;
  }
}

=== FILE: history_bot.dfy ===
/**
  The second bot variant (bot.py): the ledger shares its state with a map of
  per-guild history channels, the board can be built for any day, and the
  midnight job posts yesterday's board to each configured channel before
  removing yesterday from every guild.
 */
module HistoryBot {
  import opened Clock
  import opened Ledger
  import opened Board

  type Channel = nat

  /** The persisted state: the ledger and each guild's history channel. */
  datatype State = State(attendance: Attendance, historyChannel: map<Guild, Channel>)

  /** `kenhlichsu`: sets guild `g`'s history channel. */
  function SetHistoryChannel(st: State, g: Guild, ch: Channel): (st': State)
    ensures st'.historyChannel.Keys == st.historyChannel.Keys + {g}
    ensures st'.historyChannel[g] == ch
    ensures forall g' :: g' in st.historyChannel && g' != g ==> st'.historyChannel[g'] == st.historyChannel[g']
    ensures st'.attendance == st.attendance
  {
    st.(historyChannel := st.historyChannel[g := ch])
  }

  /** One history post: the channel and the board sent to it. */
  datatype Report = Report(channel: Channel, board: Board)

  /** What one tick of the midnight job produces. */
  datatype Tick = Tick(reports: map<Guild, Report>, state: State)

  /** Guild `g` gets a history post: it has a ledger entry and a configured channel the platform resolves. */
  predicate Reported(st: State, g: Guild, reachable: set<Channel>)
  {
    g in st.attendance && g in st.historyChannel && st.historyChannel[g] in reachable
  }

  /**
    The midnight job (`auto_reset`) run at day `today`, time of day `t`;
    `reachable` holds the channels the platform can resolve. Outside the
    minute "00:00" nothing happens. In it, every guild with a ledger entry
    and a reachable history channel gets yesterday's board as it stood, and
    yesterday is then removed from every guild.
   */
  function AutoReset(st: State, today: Day, t: TimeOfDay, reachable: set<Channel>): (r: Tick)
    ensures t >= MicrosPerMinute ==> r.reports == map[] && r.state == st
    ensures r.state.historyChannel == st.historyChannel
    ensures r.state.attendance.Keys == st.attendance.Keys
    ensures var yday := today - 1;
            t < MicrosPerMinute ==>
              && (forall g :: g in r.reports <==> Reported(st, g, reachable))
              && (forall g :: g in r.reports ==>
                    r.reports[g] == Report(st.historyChannel[g], BuildBoard(st.attendance, g, yday)))
              && (forall g, s :: Lookup(r.state.attendance, g, yday, s) == [])
              && (forall g :: g in r.state.attendance ==> yday !in r.state.attendance[g])
    ensures var yday := today - 1;
            forall g, d, s :: d != yday ==> Lookup(r.state.attendance, g, d, s) == Lookup(st.attendance, g, d, s)
    ensures var yday := today - 1;
            forall g, d :: g in st.attendance && d in st.attendance[g] && d != yday ==>
              d in r.state.attendance[g] && r.state.attendance[g][d] == st.attendance[g][d]
  {
    MidnightStamp(t);
    if StampOf(t) != Midnight then Tick(map[], st)
    else
      var yday := today - 1;
      var reports := map g | g in st.attendance && Reported(st, g, reachable) ::
        Report(st.historyChannel[g], BuildBoard(st.attendance, g, yday));
      Tick(reports, st.(attendance := ClearDay(st.attendance, yday)))
  }

  /** Each history post shows the finished day's data, which the same tick then clears. */
  lemma ReportBuiltBeforeRemoval(st: State, today: Day, reachable: set<Channel>, g: Guild)
    requires Reported(st, g, reachable)
    ensures var r := AutoReset(st, today, At(0, 0), reachable);
            && g in r.reports
            && r.reports[g].board.total
               == |Lookup(st.attendance, g, today - 1, Noon)| + |Lookup(st.attendance, g, today - 1, Evening)|
            && BuildBoard(r.state.attendance, g, today - 1).total == 0
  {
  }

  /**
    Running the midnight job twice in the same minute leaves the same state
    as running it once, but it is not harmless: the second run posts again to
    every guild the first run posted to, and each of those posts shows an
    empty board.
   */
  lemma AutoResetIdempotent(st: State, today: Day, t: TimeOfDay, reachable: set<Channel>)
    ensures var first := AutoReset(st, today, t, reachable);
            var again := AutoReset(first.state, today, t, reachable);
            && again.state == first.state
            && again.reports.Keys == first.reports.Keys
            && forall g :: g in again.reports ==> again.reports[g].board == Board(today - 1, [], [], 0)
  {
    MidnightStamp(t);
    if StampOf(t) == Midnight {
      var first := AutoReset(st, today, t, reachable);
      ClearDayIdempotent(st.attendance, today - 1);
      forall g | Reported(first.state, g, reachable)
        ensures BuildBoard(first.state.attendance, g, today - 1) == Board(today - 1, [], [], 0)
      {
        var b := BuildBoard(first.state.attendance, g, today - 1);
        assert |b.Section(Noon)| == 0 && |b.Section(Evening)| == 0;
      }
    }
  }

  /** No two positions of `gs` hold the same guild. */
  predicate Distinct(gs: seq<Guild>)
  {
    forall i, j :: 0 <= i < j < |gs| ==> gs[i] != gs[j]
  }

  /** The posts the job makes while walking the guilds of `gs` in order, every send succeeding. */
  function PostsAlong(st: State, yday: Day, reachable: set<Channel>, gs: seq<Guild>): (posts: seq<(Guild, Report)>)
    ensures forall k :: 0 <= k < |posts| ==>
              && posts[k].0 in gs && Reported(st, posts[k].0, reachable)
              && posts[k].1 == Report(st.historyChannel[posts[k].0], BuildBoard(st.attendance, posts[k].0, yday))
  {
    if gs == [] then []
    else
      var g := gs[|gs| - 1];
      var earlier := PostsAlong(st, yday, reachable, gs[..|gs| - 1]);
      if Reported(st, g, reachable) then
        earlier + [(g, Report(st.historyChannel[g], BuildBoard(st.attendance, g, yday)))]
      else earlier
  }

  /** Every guild of the walk that has a resolvable history channel gets a post. */
  lemma {:induction false} PostsAlongComplete(st: State, yday: Day, reachable: set<Channel>, gs: seq<Guild>, g: Guild)
    requires g in gs && Reported(st, g, reachable)
    ensures exists k :: 0 <= k < |PostsAlong(st, yday, reachable, gs)| && PostsAlong(st, yday, reachable, gs)[k].0 == g
  {
    var last, prefix := gs[|gs| - 1], gs[..|gs| - 1];
    var posts := PostsAlong(st, yday, reachable, gs);
    if g == last {
      var k := |posts| - 1;
      assert 0 <= k < |posts| && posts[k].0 == g;
    } else {
      assert g in prefix by {
        assert gs == prefix + [last];
      }
      PostsAlongComplete(st, yday, reachable, prefix, g);
      var earlier := PostsAlong(st, yday, reachable, prefix);
      var k :| 0 <= k < |earlier| && earlier[k].0 == g;
      PostsAlongExtends(st, yday, reachable, gs);
      assert posts[k] == earlier[k];
    }
  }

  /** Walking one more guild only adds posts at the end. */
  lemma PostsAlongExtends(st: State, yday: Day, reachable: set<Channel>, gs: seq<Guild>)
    requires gs != []
    ensures PostsAlong(st, yday, reachable, gs[..|gs| - 1]) <= PostsAlong(st, yday, reachable, gs)
  {
  }

  /** No guild has two posts in `posts`. */
  predicate PostedOnce(posts: seq<(Guild, Report)>)
  {
    forall k1, k2 :: 0 <= k1 < k2 < |posts| ==> posts[k1].0 != posts[k2].0
  }

  /** A walk that names each guild once posts to each guild at most once. */
  lemma {:induction false} PostsAlongOnce(st: State, yday: Day, reachable: set<Channel>, gs: seq<Guild>)
    requires Distinct(gs)
    ensures PostedOnce(PostsAlong(st, yday, reachable, gs))
  {
    if gs != [] {
      var last, prefix := gs[|gs| - 1], gs[..|gs| - 1];
      assert Distinct(prefix);
      assert last !in prefix by {
        assert forall j :: 0 <= j < |prefix| ==> prefix[j] == gs[j];
      }
      PostsAlongOnce(st, yday, reachable, prefix);
      var earlier := PostsAlong(st, yday, reachable, prefix);
      if Reported(st, last, reachable) {
        var posts := earlier + [(last, Report(st.historyChannel[last], BuildBoard(st.attendance, last, yday)))];
        assert PostsAlong(st, yday, reachable, gs) == posts;
        forall k1, k2 | 0 <= k1 < k2 < |posts|
          ensures posts[k1].0 != posts[k2].0
        {
          assert posts[k1] == earlier[k1];
          if k2 == |posts| - 1 {
            assert earlier[k1].0 in prefix;
          } else {
            assert posts[k2] == earlier[k2];
          }
        }
      } else {
        assert PostsAlong(st, yday, reachable, gs) == earlier;
      }
    }
  }

  /** Boards depend only on the two session lists they read. */
  lemma SameListsSameBoard(a: Attendance, a': Attendance, g: Guild, d: Day)
    requires forall s :: Lookup(a', g, d, s) == Lookup(a, g, d, s)
    ensures BuildBoard(a', g, d) == BuildBoard(a, g, d)
  {
    var b1, b2 := BuildBoard(a', g, d), BuildBoard(a, g, d);
    assert b1.Section(Noon) == b2.Section(Noon);
    assert b1.Section(Evening) == b2.Section(Evening);
  }

  /**
    The `await ch.send(...)` for guild `g` raises: the guild gets a post, but
    its channel (in `reachable`) is not one the platform accepts messages on
    (outside `delivers`).
   */
  predicate SendFails(st: State, g: Guild, reachable: set<Channel>, delivers: set<Channel>)
  {
    Reported(st, g, reachable) && st.historyChannel[g] !in delivers
  }

  /** The position of the first guild of `gs` whose send raises, or `|gs|` when none does. */
  function FirstFailure(st: State, reachable: set<Channel>, delivers: set<Channel>, gs: seq<Guild>): (k: nat)
    ensures k <= |gs|
    ensures forall j :: 0 <= j < k ==> !SendFails(st, gs[j], reachable, delivers)
    ensures k < |gs| ==> SendFails(st, gs[k], reachable, delivers)
  {
    if gs == [] then 0
    else if SendFails(st, gs[0], reachable, delivers) then 0
    else
      var k := FirstFailure(st, reachable, delivers, gs[1..]);
      assert forall j :: 1 <= j < k + 1 ==> gs[j] == gs[1..][j - 1];
      k + 1
  }

  /** One more guild of the walk adds that guild's post, if it gets one, at the end. */
  lemma PostsAlongStep(st: State, yday: Day, reachable: set<Channel>, order: seq<Guild>, i: nat)
    requires i < |order|
    ensures var g := order[i];
            PostsAlong(st, yday, reachable, order[..i + 1])
            == PostsAlong(st, yday, reachable, order[..i])
               + if Reported(st, g, reachable)
                 then [(g, Report(st.historyChannel[g], BuildBoard(st.attendance, g, yday)))]
                 else []
  {
    assert order[..i + 1][..i] == order[..i];
  }

  /** The ledger after the guilds of `gs` have each lost day `d`; other guilds keep it. */
  function ClearAlong(a: Attendance, d: Day, gs: seq<Guild>): (a': Attendance)
    ensures a'.Keys == a.Keys
    ensures forall g, s :: g in gs ==> Lookup(a', g, d, s) == []
    ensures forall g, d', s :: (g !in gs || d' != d) ==> Lookup(a', g, d', s) == Lookup(a, g, d', s)
  {
    map g | g in a :: if g in gs then a[g] - {d} else a[g]
  }

  /** Before the walk has popped any guild, the ledger is as it was. */
  lemma ClearAlongNone(a: Attendance, d: Day, order: seq<Guild>)
    ensures ClearAlong(a, d, order[..0]) == a
  {
    var a' := ClearAlong(a, d, order[..0]);
    assert forall g :: g in a ==> a'[g] == a[g];
  }

  /**
    The walked guilds no longer hold the day's key at all (the pop removes
    it), and every other guild and day keeps its key and its entry.
   */
  lemma ClearAlongKeys(a: Attendance, d: Day, gs: seq<Guild>)
    ensures var a' := ClearAlong(a, d, gs);
            && (forall g :: g in a' && g in gs ==> d !in a'[g])
            && (forall g, d' :: g in a && d' in a[g] && (g !in gs || d' != d) ==> d' in a'[g] && a'[g][d'] == a[g][d'])
  {
  }

  /** A walk that stops part-way, at a failing send, still leaves every session list free of repeated uids. */
  lemma ClearAlongPreservesWellFormed(a: Attendance, d: Day, gs: seq<Guild>)
    requires WellFormed(a)
    ensures WellFormed(ClearAlong(a, d, gs))
  {
  }

  /** Once every guild of the ledger has been walked, the walk has cleared the day everywhere. */
  lemma ClearAlongAll(a: Attendance, d: Day, gs: seq<Guild>)
    requires forall g :: g in a ==> g in gs
    ensures ClearAlong(a, d, gs) == ClearDay(a, d)
  {
  }

  /**
    One step of the walk: the guild at position `i` is still untouched, and
    clearing it extends the cleared prefix by that guild.
   */
  lemma WalkStep(a0: Attendance, a: Attendance, d: Day, order: seq<Guild>, i: nat)
    requires i < |order| && Distinct(order) && order[i] in a0
    requires a == ClearAlong(a0, d, order[..i])
    ensures order[i] in a && a[order[i]] == a0[order[i]]
    ensures a[order[i] := a[order[i]] - {d}] == ClearAlong(a0, d, order[..i + 1])
  {
    var g := order[i];
    assert g !in order[..i];
    assert order[..i + 1] == order[..i] + [g];
    var lhs, rhs := a[g := a[g] - {d}], ClearAlong(a0, d, order[..i + 1]);
    assert forall g' :: g' in a0 ==> lhs[g'] == rhs[g'];
  }

  /**
    One step of the walk, posts included: the post made for the guild at
    position `i`, built from the partly cleared ledger, is the one
    `PostsAlong` makes for it, and clearing it extends the cleared prefix.
   */
  lemma WalkAdvance(st: State, yday: Day, reachable: set<Channel>, order: seq<Guild>, i: nat,
                    a: Attendance, posts: seq<(Guild, Report)>)
    requires i < |order| && Distinct(order) && order[i] in st.attendance
    requires a == ClearAlong(st.attendance, yday, order[..i])
    requires posts == PostsAlong(st, yday, reachable, order[..i])
    ensures order[i] in a
    ensures a[order[i] := a[order[i]] - {yday}] == ClearAlong(st.attendance, yday, order[..i + 1])
    ensures var g := order[i];
            Reported(st, g, reachable) ==>
              posts + [(g, Report(st.historyChannel[g], BuildBoard(a, g, yday)))]
              == PostsAlong(st, yday, reachable, order[..i + 1])
    ensures !Reported(st, order[i], reachable) ==> posts == PostsAlong(st, yday, reachable, order[..i + 1])
  {
    var g := order[i];
    WalkStep(st.attendance, a, yday, order, i);
    PostsAlongStep(st, yday, reachable, order, i);
    SameGuildSameBoard(st.attendance, a, g, yday);
  }

  /** A guild whose map is unchanged shows the same board. */
  lemma SameGuildSameBoard(a: Attendance, a': Attendance, g: Guild, d: Day)
    requires g in a && g in a' && a'[g] == a[g]
    ensures BuildBoard(a', g, d) == BuildBoard(a, g, d)
  {
    SameListsSameBoard(a, a', g, d);
  }

  /**
    At "00:00", walking every guild of the ledger once, resetting each and
    collecting the posts of `PostsAlong`, ends where `AutoReset` does: the same
    state, and a post for exactly the guilds `AutoReset` reports, each carrying
    `AutoReset`'s report.
   */
  lemma WalkAgrees(st: State, today: Day, t: TimeOfDay, reachable: set<Channel>, order: seq<Guild>, a: Attendance)
    requires t < MicrosPerMinute
    requires forall g :: g in st.attendance <==> g in order
    requires a == ClearAlong(st.attendance, today - 1, order)
    ensures st.(attendance := a) == AutoReset(st, today, t, reachable).state
    ensures var posts := PostsAlong(st, today - 1, reachable, order);
            && (forall k :: 0 <= k < |posts| ==> posts[k].1 == AutoReset(st, today, t, reachable).reports[posts[k].0])
            && (set k | 0 <= k < |posts| :: posts[k].0) == AutoReset(st, today, t, reachable).reports.Keys
  {
    MidnightStamp(t);
    ClearAlongAll(st.attendance, today - 1, order);
    var posts := PostsAlong(st, today - 1, reachable, order);
    var spec := AutoReset(st, today, t, reachable);
    forall g | g in spec.reports
      ensures g in (set k | 0 <= k < |posts| :: posts[k].0)
    {
      PostsAlongComplete(st, today - 1, reachable, order, g);
      var k :| 0 <= k < |posts| && posts[k].0 == g;
    }
  }

  /**
    The loop of the midnight job (bot.py:174-180) over the guilds in the
    ledger's key order `order`. Each guild with a resolvable history channel
    is sent its board of day `yday`, then loses its entry for that day, so a
    guild's board is built after earlier guilds have been reset. A send that
    raises (`delivers` lacks the channel) ends the loop at once: that guild
    and every later one keep the day, and `failed` is set.
   */
  method Walk(st: State, yday: Day, reachable: set<Channel>, delivers: set<Channel>, order: seq<Guild>)
    returns (posts: seq<(Guild, Report)>, a: Attendance, failed: bool)
    requires Distinct(order)
    requires forall g :: g in st.attendance <==> g in order
    ensures var stop := FirstFailure(st, reachable, delivers, order);
            && (failed <==> stop < |order|)
            && posts == PostsAlong(st, yday, reachable, order[..stop])
            && a == ClearAlong(st.attendance, yday, order[..stop])
  {
    var stop := FirstFailure(st, reachable, delivers, order);
    a := st.attendance;
    ClearAlongNone(st.attendance, yday, order);
    posts, failed := [], false;
    var i := 0;
    while i < |order|
      invariant 0 <= i <= stop
      invariant a == ClearAlong(st.attendance, yday, order[..i])
      invariant posts == PostsAlong(st, yday, reachable, order[..i])
      invariant !failed
    {
      var g := order[i];
      WalkAdvance(st, yday, reachable, order, i, a, posts);
      if Reported(st, g, reachable) {
        if SendFails(st, g, reachable, delivers) {
          failed := true;
          break;
        }
        posts := posts + [(g, Report(st.historyChannel[g], BuildBoard(a, g, yday)))];
      }
      a := a[g := a[g] - {yday}];
      i := i + 1;
    }
    assert i == stop;
  }

  /**
    The midnight job as the source runs it (`auto_reset`): outside "00:00"
    nothing happens; at "00:00" it runs `Walk` over the ledger's guilds for
    yesterday. When no send raises, the job agrees with `AutoReset`: the same
    state, and one post for each guild `AutoReset` reports, carrying
    `AutoReset`'s report.
   */
  method RunAutoReset(st: State, today: Day, t: TimeOfDay, reachable: set<Channel>, delivers: set<Channel>, order: seq<Guild>)
    returns (posts: seq<(Guild, Report)>, st': State, failed: bool)
    requires Distinct(order)
    requires forall g :: g in st.attendance <==> g in order
    ensures t >= MicrosPerMinute ==> posts == [] && st' == st && !failed
    ensures t < MicrosPerMinute ==>
              var stop := FirstFailure(st, reachable, delivers, order);
              && (failed <==> stop < |order|)
              && posts == PostsAlong(st, today - 1, reachable, order[..stop])
              && st'.historyChannel == st.historyChannel
              && st'.attendance == ClearAlong(st.attendance, today - 1, order[..stop])
    ensures !failed ==> st' == AutoReset(st, today, t, reachable).state
    ensures !failed ==> (set k | 0 <= k < |posts| :: posts[k].0) == AutoReset(st, today, t, reachable).reports.Keys
    ensures forall k :: 0 <= k < |posts| ==>
              posts[k].1 == AutoReset(st, today, t, reachable).reports[posts[k].0]
    ensures PostedOnce(posts)
  {
    MidnightStamp(t);
    if StampOf(t) != Midnight {
      return [], st, false;
    }
    var a;
    posts, a, failed := Walk(st, today - 1, reachable, delivers, order);
    st' := st.(attendance := a);
    var stop := FirstFailure(st, reachable, delivers, order);
    DistinctPrefix(order, stop);
    PostsAlongOnce(st, today - 1, reachable, order[..stop]);
    if !failed {
      assert order[..stop] == order;
      WalkAgrees(st, today, t, reachable, order, a);
    } else {
      PrefixPostsAgree(st, today, t, reachable, order[..stop]);
    }
  }

  /** A prefix of a walk that names each guild once names each of its guilds once. */
  lemma DistinctPrefix(gs: seq<Guild>, n: nat)
    requires Distinct(gs) && n <= |gs|
    ensures Distinct(gs[..n])
  {
    assert forall j :: 0 <= j < n ==> gs[..n][j] == gs[j];
  }

  /** Every post of a walk over any guilds is the post `AutoReset` makes for that guild. */
  lemma PrefixPostsAgree(st: State, today: Day, t: TimeOfDay, reachable: set<Channel>, gs: seq<Guild>)
    requires t < MicrosPerMinute
    ensures var posts := PostsAlong(st, today - 1, reachable, gs);
            forall k :: 0 <= k < |posts| ==> posts[k].1 == AutoReset(st, today, t, reachable).reports[posts[k].0]
  {
    MidnightStamp(t);
  }
}

=== FILE: ledger.dfy ===
/**
  The attendance ledger both bot variants keep in memory: a nested map
  guild -> day -> session -> check-ins in insertion order, together with the
  check-in transaction run by the attendance button and the removal of a
  day's entry used by the resets.
 */
module Ledger {
  import opened Options
  import opened Clock

  type Guild = string
  type Uid = string

  /** One check-in: who, and the `%H:%M` stamp of when. */
  datatype Record = Record(uid: Uid, time: Stamp)

  type DayEntry = map<Session, seq<Record>>
  type GuildLog = map<Day, DayEntry>
  type Attendance = map<Guild, GuildLog>

  /**
    The check-ins of one session of one day of one guild, where a missing
    guild, day or session reads as the empty list (the source's chained
    `.get(..., {})` / `.get(..., [])`).
   */
  function Lookup(a: Attendance, g: Guild, d: Day, s: Session): seq<Record>
  {
    if g in a && d in a[g] && s in a[g][d] then a[g][d][s] else []
  }

  /** `uid` already has a check-in in `list`. */
  predicate Present(list: seq<Record>, uid: Uid)
  {
    exists i :: 0 <= i < |list| && list[i].uid == uid
  }

  /** No uid has two check-ins in `list`. */
  predicate UniqueUids(list: seq<Record>)
  {
    forall i, j :: 0 <= i < j < |list| ==> list[i].uid != list[j].uid
  }

  /** Every session list of the ledger holds each uid at most once. */
  ghost predicate WellFormed(a: Attendance)
  {
    forall g, d, s :: UniqueUids(Lookup(a, g, d, s))
  }

  /** The duplicate scan `any(u["uid"] == uid for u in list)`. */
  function HasUid(list: seq<Record>, uid: Uid): (b: bool)
    ensures b <==> Present(list, uid)
  {
    if list == [] then false
    else if list[0].uid == uid then true
    else
      var b := HasUid(list[1..], uid);
      assert Present(list[1..], uid) ==> Present(list, uid) by {
        if Present(list[1..], uid) {
          var i :| 0 <= i < |list[1..]| && list[1..][i].uid == uid;
          assert list[i + 1].uid == uid;
        }
      }
      assert Present(list, uid) && list[0].uid != uid ==> Present(list[1..], uid) by {
        if Present(list, uid) && list[0].uid != uid {
          var i :| 0 <= i < |list| && list[i].uid == uid;
          assert list[1..][i - 1].uid == uid;
        }
      }
      b
  }

  /**
    The two `setdefault` chains of the check-in: the guild's map, the day's
    map and both session lists are created where missing; nothing present is
    replaced.
   */
  function WithDay(a: Attendance, g: Guild, d: Day): (a': Attendance)
    ensures g in a' && d in a'[g] && Noon in a'[g][d] && Evening in a'[g][d]
    ensures a'.Keys == a.Keys + {g}
    ensures forall g' :: g' in a && g' != g ==> a'[g'] == a[g']
    ensures g in a ==> a'[g].Keys == a[g].Keys + {d}
    ensures forall d' :: g in a && d' in a[g] && d' != d ==> a'[g][d'] == a[g][d']
    ensures forall g', d', s :: Lookup(a', g', d', s) == Lookup(a, g', d', s)
  {
    var log := if g in a then a[g] else map[];
    var entry := if d in log then log[d] else map[];
    var noon := if Noon in entry then entry[Noon] else [];
    var evening := if Evening in entry then entry[Evening] else [];
    a[g := log[d := entry[Noon := noon][Evening := evening]]]
  }

  /** Replaces the list of session `s` on day `d` of guild `g`, where the guild and day exist. */
  function SetList(a: Attendance, g: Guild, d: Day, s: Session, list: seq<Record>): (a': Attendance)
    requires g in a && d in a[g]
    ensures a'.Keys == a.Keys && a'[g].Keys == a[g].Keys && a'[g][d].Keys == a[g][d].Keys + {s}
    ensures Lookup(a', g, d, s) == list
    ensures forall g', d', s' :: (g' != g || d' != d || s' != s) ==> Lookup(a', g', d', s') == Lookup(a, g', d', s')
    ensures forall g' :: g' in a && g' != g ==> a'[g'] == a[g']
    ensures forall d' :: d' in a[g] && d' != d ==> a'[g][d'] == a[g][d']
  {
    a[g := a[g][d := a[g][d][s := list]]]
  }

  /** Why a check-in was turned away, or the record it stored. */
  datatype Outcome = Accepted(record: Record) | OutOfWindow | Duplicate

  datatype CheckInResult = CheckInResult(outcome: Outcome, attendance: Attendance)

  /**
    The body of the attendance button (`AttendanceView.attend`): member `uid`
    of guild `g` checks in on day `d` at time of day `t`.
   */
  function CheckIn(a: Attendance, g: Guild, uid: Uid, d: Day, t: TimeOfDay): (r: CheckInResult)
    ensures r.outcome == OutOfWindow <==> InSession(t) == None
    ensures r.outcome == OutOfWindow ==> r.attendance == a
    ensures r.outcome == Duplicate <==> InSession(t).Some? && Present(Lookup(a, g, d, InSession(t).value), uid)
    ensures r.outcome == Duplicate ==> forall s :: Lookup(r.attendance, g, d, s) == Lookup(a, g, d, s)
    ensures r.outcome.Accepted? ==>
              && r.outcome.record == Record(uid, StampOf(t))
              && Lookup(r.attendance, g, d, InSession(t).value)
                 == Lookup(a, g, d, InSession(t).value) + [r.outcome.record]
  {
    match InSession(t)
    case None => CheckInResult(OutOfWindow, a)
    case Some(s) =>
      var a1 := WithDay(a, g, d);
      var list := a1[g][d][s];
      if HasUid(list, uid) then
        CheckInResult(Duplicate, a1)
      else
        var rec := Record(uid, StampOf(t));
        CheckInResult(Accepted(rec), SetList(a1, g, d, s, list + [rec]))
  }

  /**
    A check-in touches only its own guild, day and session: every other
    session list reads as before, other guilds keep their maps, and the
    guild's other days keep their entries.
   */
  lemma CheckInFrame(a: Attendance, g: Guild, uid: Uid, d: Day, t: TimeOfDay)
    ensures var r := CheckIn(a, g, uid, d, t);
            forall g', d', s :: (g' != g || d' != d || Some(s) != InSession(t)) ==>
              Lookup(r.attendance, g', d', s) == Lookup(a, g', d', s)
    ensures var r := CheckIn(a, g, uid, d, t);
            forall g' :: g' in a && g' != g ==> g' in r.attendance && r.attendance[g'] == a[g']
    ensures var r := CheckIn(a, g, uid, d, t);
            forall d' :: g in a && d' in a[g] && d' != d ==> d' in r.attendance[g] && r.attendance[g][d'] == a[g][d']
  {
    match InSession(t)
    case None =>
    case Some(s) =>
      var a1 := WithDay(a, g, d);
      if !HasUid(a1[g][d][s], uid) {
        var a2 := SetList(a1, g, d, s, a1[g][d][s] + [Record(uid, StampOf(t))]);
        assert CheckIn(a, g, uid, d, t).attendance == a2;
      }
  }

  /**
    A check-in inside a window leaves the guild and the day present with both
    session lists, whether it was accepted or turned away as a duplicate; one
    outside every window creates no key at all.
   */
  lemma CheckInKeys(a: Attendance, g: Guild, uid: Uid, d: Day, t: TimeOfDay)
    ensures var r := CheckIn(a, g, uid, d, t);
            InSession(t).Some? ==>
              && r.attendance.Keys == a.Keys + {g}
              && d in r.attendance[g]
              && Noon in r.attendance[g][d] && Evening in r.attendance[g][d]
    ensures InSession(t) == None ==> CheckIn(a, g, uid, d, t).attendance.Keys == a.Keys
  {
  }

  /** Check-in keeps every uid at most once per guild, day and session. */
  lemma {:induction false} CheckInPreservesWellFormed(a: Attendance, g: Guild, uid: Uid, d: Day, t: TimeOfDay)
    requires WellFormed(a)
    ensures WellFormed(CheckIn(a, g, uid, d, t).attendance)
  {
    var r := CheckIn(a, g, uid, d, t);
    CheckInFrame(a, g, uid, d, t);
    match InSession(t)
    case None =>
    case Some(s) =>
      if r.outcome.Accepted? {
        WellFormedAfterAppend(a, r.attendance, g, d, s, r.outcome.record);
      } else {
        assert forall g', d', s' :: Lookup(r.attendance, g', d', s') == Lookup(a, g', d', s');
      }
  }

  /**
    Appending a record whose uid the list does not yet hold, and changing no
    other list, keeps every list free of repeated uids.
   */
  lemma WellFormedAfterAppend(a: Attendance, a': Attendance, g: Guild, d: Day, s: Session, rec: Record)
    requires WellFormed(a)
    requires !Present(Lookup(a, g, d, s), rec.uid)
    requires Lookup(a', g, d, s) == Lookup(a, g, d, s) + [rec]
    requires forall g', d', s' :: (g' != g || d' != d || s' != s) ==> Lookup(a', g', d', s') == Lookup(a, g', d', s')
    ensures WellFormed(a')
  {
    forall g', d', s'
      ensures UniqueUids(Lookup(a', g', d', s'))
    {
      assert UniqueUids(Lookup(a, g', d', s'));
    }
  }

  /**
    Once a member is checked in for a session, any later check-in of that
    member in the same guild, day and session is turned away as a duplicate
    and stores nothing.
   */
  lemma CheckInTwiceIsDuplicate(a: Attendance, g: Guild, uid: Uid, d: Day, t: TimeOfDay, t2: TimeOfDay)
    requires CheckIn(a, g, uid, d, t).outcome.Accepted?
    requires InSession(t2) == InSession(t)
    ensures var a1 := CheckIn(a, g, uid, d, t).attendance;
            var r2 := CheckIn(a1, g, uid, d, t2);
            && r2.outcome == Duplicate
            && forall g', d', s :: Lookup(r2.attendance, g', d', s) == Lookup(a1, g', d', s)
  {
    var r := CheckIn(a, g, uid, d, t);
    var s := InSession(t).value;
    var list := Lookup(r.attendance, g, d, s);
    assert list[|list| - 1].uid == uid;
  }

  /** One press of the attendance button: who pressed it, in which guild, on which day, at what time. */
  datatype Press = Press(guild: Guild, uid: Uid, day: Day, time: TimeOfDay)

  /** The ledger after the presses of `presses`, in order, starting from `a`. */
  function Replay(a: Attendance, presses: seq<Press>): Attendance
  {
    if presses == [] then a
    else
      var p := presses[|presses| - 1];
      CheckIn(Replay(a, presses[..|presses| - 1]), p.guild, p.uid, p.day, p.time).attendance
  }

  /**
    Starting from the empty ledger a fresh data file loads as, any sequence
    of button presses leaves every uid at most once in every session list.
   */
  lemma {:induction false} ReplayWellFormed(presses: seq<Press>)
    ensures WellFormed(Replay(map[], presses))
  {
    if presses == [] {
      assert forall g, d, s :: Lookup(map[], g, d, s) == [];
    } else {
      var p := presses[|presses| - 1];
      ReplayWellFormed(presses[..|presses| - 1]);
      CheckInPreservesWellFormed(Replay(map[], presses[..|presses| - 1]), p.guild, p.uid, p.day, p.time);
    }
  }

  /** Removes day `d` from guild `g` only (`attendance.get(gid, {}).pop(day, None)`). */
  function ClearGuildDay(a: Attendance, g: Guild, d: Day): (a': Attendance)
    ensures a'.Keys == a.Keys
    ensures g in a' ==> d !in a'[g]
    ensures forall s :: Lookup(a', g, d, s) == []
    ensures forall g', d', s :: (g' != g || d' != d) ==> Lookup(a', g', d', s) == Lookup(a, g', d', s)
    ensures forall g' :: g' in a && g' != g ==> a'[g'] == a[g']
  {
    if g in a then a[g := a[g] - {d}] else a
  }

  /** Removes day `d` from every guild (`for gid in attendance: attendance[gid].pop(day, None)`). */
  function ClearDay(a: Attendance, d: Day): (a': Attendance)
    ensures a'.Keys == a.Keys
    ensures forall g :: g in a' ==> d !in a'[g]
    ensures forall g, s :: Lookup(a', g, d, s) == []
    ensures forall g, d', s :: d' != d ==> Lookup(a', g, d', s) == Lookup(a, g, d', s)
    ensures forall g, d' :: g in a && d' in a[g] && d' != d ==> d' in a'[g] && a'[g][d'] == a[g][d']
  {
    map g | g in a :: a[g] - {d}
  }

  /** Clearing every guild's day agrees, guild by guild, with clearing that one guild's day. */
  lemma ClearDayIsPerGuild(a: Attendance, d: Day, g: Guild)
    requires g in a
    ensures ClearDay(a, d)[g] == ClearGuildDay(a, g, d)[g]
  {
  }

  /** Clearing one guild's day twice is the same as clearing it once. */
  lemma ClearGuildDayIdempotent(a: Attendance, g: Guild, d: Day)
    ensures ClearGuildDay(ClearGuildDay(a, g, d), g, d) == ClearGuildDay(a, g, d)
  {
    if g in a {
      assert (a[g] - {d}) - {d} == a[g] - {d};
    }
  }

  /** Clearing a day from every guild twice is the same as clearing it once. */
  lemma ClearDayIdempotent(a: Attendance, d: Day)
    ensures ClearDay(ClearDay(a, d), d) == ClearDay(a, d)
  {
    var once := ClearDay(a, d);
    var twice := ClearDay(once, d);
    assert forall g' :: g' in once ==> twice[g'] == once[g'] - {d} == once[g'];
  }

  /** Clearing a day keeps every session list free of repeated uids. */
  lemma ClearPreservesWellFormed(a: Attendance, g: Guild, d: Day)
    requires WellFormed(a)
    ensures WellFormed(ClearDay(a, d))
    ensures WellFormed(ClearGuildDay(a, g, d))
  {
  }
}

=== FILE: options.dfy ===
/** The optional value returned where the source returns `None` for "no result". */
module Options {

  datatype Option<+T> = None | Some(value: T)

}

=== FILE: plain_bot.dfy ===
/**
  The parts of the first bot variant (a.py) that differ from the second:
  its board always shows today, its manual end-of-day clears today for one
  guild, and its midnight job clears today for every guild.
 */
module PlainBot {
  import opened Options
  import opened Clock
  import opened Ledger
  import opened Board

  /** What the manual end-of-day produces: the board it posted, if any, and the ledger after it. */
  datatype EndOfDay = EndOfDay(posted: Option<Board>, attendance: Attendance)

  /**
    The manual end-of-day command (`testenday`) for guild `g`: posts the
    board of day `shown` as it stood, then removes the entry of day `cleared`
    of that guild only. The command reads today's date twice, once while
    building the board and once for the reset after the send has completed,
    so the two days differ when the send finishes after midnight.
    `delivered` says whether the post to the channel succeeds; when it
    raises, the command stops before the reset, nothing is posted and the
    ledger is unchanged.
   */
  function EndDay(a: Attendance, g: Guild, shown: Day, cleared: Day, delivered: bool): (r: EndOfDay)
    ensures !delivered ==> r.posted == None && r.attendance == a
    ensures delivered ==>
              && r.posted == Some(BuildBoard(a, g, shown))
              && r.posted.value.total == |Lookup(a, g, shown, Noon)| + |Lookup(a, g, shown, Evening)|
              && BuildBoard(r.attendance, g, cleared) == Board(cleared, [], [], 0)
    ensures r.attendance.Keys == a.Keys
    ensures forall g', d, s :: (g' != g || d != cleared) ==> Lookup(r.attendance, g', d, s) == Lookup(a, g', d, s)
  {
    if !delivered then EndOfDay(None, a)
    else
      var posted := BuildBoard(a, g, shown);
      var a' := ClearGuildDay(a, g, cleared);
      assert forall s :: |BuildBoard(a', g, cleared).Section(s)| == 0;
      EndOfDay(Some(posted), a')
  }

  /** When both date reads fall on the same day, the day posted is the day whose board the reset empties. */
  lemma EndDaySameDay(a: Attendance, g: Guild, today: Day)
    ensures var r := EndDay(a, g, today, today, true);
            && r.posted.value.total == |Lookup(a, g, today, Noon)| + |Lookup(a, g, today, Evening)|
            && BuildBoard(r.attendance, g, today).total == 0
  {
  }

  /**
    When the send completes after midnight, the reset reads the new day,
    which has no entry yet (no window opens before noon): the ledger is left
    exactly as it was, and the day that was posted keeps all its check-ins.
   */
  lemma EndDayAcrossMidnight(a: Attendance, g: Guild, d: Day)
    requires g in a ==> d + 1 !in a[g]
    ensures var r := EndDay(a, g, d, d + 1, true);
            && r.posted == Some(BuildBoard(a, g, d))
            && r.attendance == a
            && BuildBoard(r.attendance, g, d) == BuildBoard(a, g, d)
  {
    var r := EndDay(a, g, d, d + 1, true);
    if g in a {
      assert r.attendance[g] == a[g];
    }
    assert forall g' :: g' in a ==> r.attendance[g'] == a[g'];
  }

  /**
    The midnight job as written (`auto_reset`): when the clock reads "00:00"
    it removes the entry of `today`, the day that has just begun, from every
    guild; at any other minute it changes nothing.
   */
  function AutoReset(a: Attendance, today: Day, t: TimeOfDay): (a': Attendance)
    ensures t >= MicrosPerMinute ==> a' == a
    ensures a'.Keys == a.Keys
    ensures t < MicrosPerMinute ==> forall g, s :: Lookup(a', g, today, s) == []
    ensures t < MicrosPerMinute ==> forall g :: g in a' ==> today !in a'[g]
    ensures forall g, d, s :: d != today ==> Lookup(a', g, d, s) == Lookup(a, g, d, s)
    ensures forall g, d :: g in a && d in a[g] && d != today ==> d in a'[g] && a'[g][d] == a[g][d]
  {
    MidnightStamp(t);
    if StampOf(t) == Midnight then ClearDay(a, today) else a
  }

  /**
    The day that has just ended is never cleared by the job as written: its
    check-ins survive every run, for every guild.
   */
  lemma AutoResetKeepsFinishedDay(a: Attendance, today: Day, t: TimeOfDay, g: Guild, s: Session)
    ensures Lookup(AutoReset(a, today, t), g, today - 1, s) == Lookup(a, g, today - 1, s)
  {
  }

  /**
    If no guild has an entry for the new day yet (no window opens before noon,
    so none can have one at midnight), the job as written changes nothing.
   */
  lemma AutoResetNoOpOnFreshDay(a: Attendance, today: Day, t: TimeOfDay)
    requires forall g :: g in a ==> today !in a[g]
    ensures AutoReset(a, today, t) == a
  {
    var a' := AutoReset(a, today, t);
    assert forall g :: g in a ==> a'[g] == a[g];
  }

  /** A concrete run: a noon check-in of the previous day is still on that day's board after the job fires. */
  lemma AutoResetCounterexample()
    ensures var rec := Record("member", Stamp(12, 5));
            var a := map["guild" := map[9 := map[Noon := [rec], Evening := []]]];
            var a' := AutoReset(a, 10, At(0, 0));
            Lookup(a', "guild", 9, Noon) == [rec] && BuildBoard(a', "guild", 9).total == 1
  {
    var rec := Record("member", Stamp(12, 5));
    var a := map["guild" := map[9 := map[Noon := [rec], Evening := []]]];
    AutoResetKeepsFinishedDay(a, 10, At(0, 0), "guild", Noon);
    AutoResetKeepsFinishedDay(a, 10, At(0, 0), "guild", Evening);
  }

  /**
    The midnight job as evidently intended (and as the second variant does
    it): at "00:00" it removes the day that has just ended from every guild.
   */
  function AutoResetCorrected(a: Attendance, today: Day, t: TimeOfDay): (a': Attendance)
    ensures t >= MicrosPerMinute ==> a' == a
    ensures a'.Keys == a.Keys
    ensures var yday := today - 1;
            t < MicrosPerMinute ==> forall g, s :: Lookup(a', g, yday, s) == []
    ensures var yday := today - 1;
            t < MicrosPerMinute ==> forall g :: g in a' ==> yday !in a'[g]
    ensures var yday := today - 1;
            forall g, d, s :: d != yday ==> Lookup(a', g, d, s) == Lookup(a, g, d, s)
    ensures var yday := today - 1;
            forall g, d :: g in a && d in a[g] && d != yday ==> d in a'[g] && a'[g][d] == a[g][d]
  {
    MidnightStamp(t);
    if StampOf(t) == Midnight then ClearDay(a, today - 1) else a
  }

  /** After the corrected job fires, the finished day's board is empty in every guild. */
  lemma AutoResetCorrectedClearsFinishedDay(a: Attendance, today: Day, g: Guild)
    ensures BuildBoard(AutoResetCorrected(a, today, At(0, 0)), g, today - 1) == Board(today - 1, [], [], 0)
  {
    var b := BuildBoard(AutoResetCorrected(a, today, At(0, 0)), g, today - 1);
    assert |b.Section(Noon)| == 0 && |b.Section(Evening)| == 0;
  }
}
